=== FILE: README.md ===
# Base service class: a Dafny model of request/response routing

This project models the routing and dispatch core of a small Python
messaging framework. Named services each own a bounded job queue and a pool
of worker threads. They exchange `Package` envelopes by service name and
method name. A request goes to the target's queue. The target's worker calls
the named method. If the package names a response service, the result is
normalised and the same package goes to the response service's queue. There
a worker calls the named callback.

The model is a sequential state machine. Threads and timing are left out:

- One `System` value holds every service object, the process-wide registry
  (service name to the queue registered under it) and a trace of every method
  call made so far.
- Each service records its name, queue capacity, number of worker threads,
  running flag, whether its worker threads were ever started, whether workers
  are draining its queue, and its queued packages.
- `start`, `stop`, `sendRequest`, `sendResponse` and one iteration of a
  worker's loop are pure transitions on that state.

Modules:

- `Wrappers` holds `Option`.
- `Values` holds the tagged value type and argument normalisation. `Text` and
  `Items` are the iterable kinds; `Int` stands for every non-iterable value.
- `Packages` holds the envelope and its constructor.
- `Services` holds service objects, the registry, lifecycle and sending.
- `Workers` holds the method table, the request and response legs, and one
  worker step.
- `Runs` holds arbitrary interleavings of steps, their invariants, and a
  burst of sends.
- `Scenarios` holds the round trips, the lifecycle scenario and the restart
  defect.

A service's methods are an explicit table from method name to handler. A
handler takes the positional arguments and returns a value, returns nothing
(`None`) or raises. Calling a method with the wrong number of arguments, or
an attribute that is not callable, counts as raising. Handlers are pure. What
a method does to its own service's fields is not modelled. Instead every call
is recorded in the trace with the arguments it received, whether or not it
raises.

Python's string iterability is kept visible. A single string argument passes
through normalisation unchanged and is spread into one-character arguments.
A single list argument is spread into its elements, so a callee can never
receive one list as one argument unless the caller wraps it.

`start` has two models. `Services.StartAsWritten` is the code as written:
a restart leaves the service without workers (see "## Findings").
`Services.Start` is the corrected start, which launches fresh workers on
every start. The round-trip scenarios and the liveness invariant use the
corrected start. The system invariant of `Runs` is proved for both.

Some behaviours of the code that are easy to miss, all modelled as written:

- `sendResponse` builds its debug message outside its `try` block, so a
  package with a response service but no response method raises `TypeError`
  there, before the queue is touched. Inside a worker, the loop catches this
  error and drops the package. The model returns the `SendRaised` outcome and
  leaves the state unchanged.
- `stop` deletes the registry entry under the service's name, whichever
  service that entry points to. A missing entry raises `KeyError`, which is
  caught after the running flag is already cleared. `Stop` models both cases
  as removing the name.
- A package whose request service and response service are the same name
  never reaches its callback, because the request leg takes precedence on
  every delivery. As long as its request method returns and a response
  method is named, each delivery calls the request method again
  (`Scenarios.SelfAddressedRequestRepeats`, for a package alone in its
  queue). If the method raises, or no response method is named, the package
  is dropped after that one call.
- A service built with zero worker threads is running and registered after
  `start`, but nothing ever drains its queue.

## Model

| member | source | states |
|---|---|---|
| Values.Normalize | service.py:35-42 | An absent argument stays absent. A value that is already absent or iterable is returned unchanged, so normalising is idempotent. A non-iterable value becomes exactly one positional argument. |
| Values.NormalizeIdempotent | service.py:35-42 | Normalising an already-normalised argument changes nothing. |
| Values.ListArgumentIsSpread | service.py:38-39 | A single list argument passes through unchanged and is spread into its elements. The callee never receives the list itself. |
| Values.TextArgumentIsSpread | service.py:38-39 | A string of two or more characters is spread into one argument per character: argument k is the one-character string of its k-th character. It is not passed as one argument. |
| Packages.NewPackage | service.py:17-46 | Names are kept as given. The response arguments start absent. An absent argument gives a zero-argument call, a scalar gives a one-argument call, a list gives one argument per element, and a string passes through unchanged. |
| Services.Create | service.py:58-80 | A new service is appended with an empty queue of the given positive capacity and the given number of worker threads, none started yet. It is not running, has no live workers and is not registered. The registry and every other service are unchanged. |
| Services.Start | service.py:94-107 | The corrected start, which differs from the code on a restart (see "## Findings"). If the service is already running, nothing changes. Otherwise it is running, it has live workers exactly when it has at least one thread, and its name maps to its own queue, replacing any earlier entry. Its queue and every other service are kept. The system invariant and the liveness invariant are preserved. |
| Services.StartAsWritten | service.py:99-109 | The start of the code as written. On a service whose threads were never started it equals `Start`. In every case its result differs from `Start` only in whether workers are alive: they come alive only if the service has threads that were never started before. A restarted service is therefore running and registered but has no workers. |
| Services.Stop | service.py:112-127 | If the service is already stopped, nothing changes. Otherwise its name is removed from the registry, whatever the entry pointed to, and a missing entry is no failure. Afterwards `state()` is false, the name is unregistered, and the queued packages and the thread count are kept. |
| Services.State | service.py:130-137 | `state()` is the service's running flag. It is true whenever a worker is draining the queue. With the corrected start and at least one thread, it is true exactly when workers are alive. |
| Services.SendRequest | service.py:140-156 | The package is delivered exactly when the request service name is registered and that queue is below capacity. It is then appended at the back of that one queue and nothing else changes. An unregistered name or a full queue leaves the state unchanged, reported as NotExist or QueueFull. |
| Services.SendResponse | service.py:159-178 | With no response service, nothing happens. With a response service but no response method, the send raises and nothing changes. Otherwise it delivers under the same conditions as `SendRequest`, keyed by the response service name. |
| Services.SendResponseIsSendRequest | service.py:165-178 | `sendResponse` has the same outcome, target queue and unchanged-state cases as `sendRequest` of the package re-addressed to its response service. |
| Workers.Request | service.py:181-207 | A missing method changes nothing. A found method is recorded as called with the spread request arguments. If it raises, no queue changes. If it returns, the queues change exactly as `sendResponse` of the package carrying the normalised result. Lifecycle state and the registry are kept. |
| Workers.Respond | service.py:210-227 | A missing response method changes nothing. Otherwise the only change is the callback call, with the spread response arguments; its result is discarded. |
| Workers.WorkerStep | service.py:230-250 | With no live worker or an empty queue, nothing changes. Otherwise the front package is removed. The request leg runs when its request name matches; otherwise the response leg runs when its response name matches; otherwise the package is dropped. The registry, flags and invariant are preserved. |
| Workers.StepDropsFailedRequest | service.py:187-198 | When the method is missing or raises, the worker's queue loses its front and every other queue is unchanged. |
| Workers.RequestLegTakesPrecedence | service.py:239-243 | A package addressed to this service on both legs is handled as a request: the only call made is its request method. |
| Runs.RunKeepsValid | service.py:140-178 | Across any sequence of create, start, stop, send and worker steps, with the start as written or the corrected start, every queue stays within its capacity. Every registered name leads to a service of that name, and every queued package is addressed to its holder. |
| Runs.RunKeepsLive | service.py:94-127 | With the corrected start only, across any sequence of steps, workers are alive exactly for running services that have at least one thread. |
| Runs.Reachable | service.py:55-73 | Every state reachable from a process with no services satisfies the system invariant with either start. With the corrected start, it also satisfies the liveness invariant. |
| Runs.AsWrittenLosesLive | service.py:99-109 | With the start as written, start, stop and start of a service with a thread reach a running service with no live worker, which breaks the liveness invariant. |
| Runs.SendBurst | test.py:276-282 | Consecutive requests to one service append the first min(n, free places) packages in order. The rest are dropped, and an unregistered target receives none. |
| Scenarios.RequestHop | service.py:195-207 | A delivered request makes the target's worker call the method. The package, carrying the normalised result, is left exactly in the sender's queue. |
| Scenarios.ResponseHop | service.py:224-227 | The sender's worker takes the response and calls the callback with the spread response arguments. Afterwards the queue is empty. |
| Scenarios.RoundTrip | service.py:181-227 | Send, one receiver step and one sender step call the method with the request arguments, then the callback with the normalised result. Afterwards the whole state equals the starting state with those two calls added to the trace. |
| Scenarios.EchoRoundTrip | test.py:185-203 | A scalar sent to an echoing method reaches the callback as exactly one argument, the scalar. |
| Scenarios.VoidRoundTrip | test.py:141-157 | A void method leads to a zero-argument callback. |
| Scenarios.CalculatorRoundTrip | example.py:26-52 | The pair (34, 21) arrives as two arguments. The returned triple reaches the callback as (34, 21, 55). |
| Scenarios.FireAndForget | test.py:163-183 | Without a response service, the method is called and nothing further is enqueued. |
| Scenarios.SelfAddressedStep | service.py:239-243 | Take a package whose request and response both name this service, alone in an otherwise empty queue. One delivery calls its request method, and the package, carrying the normalised result, returns alone to the same queue. |
| Scenarios.SelfAddressedLoops | service.py:195-207 | Such a package, alone in an otherwise empty queue, is still alone in the queue as a request after any number n of worker steps. Exactly n calls were made, all to its request method. |
| Scenarios.AnsweredLoops | service.py:195-207 | Once answered, such a package comes back unchanged on every step, so n steps add exactly n calls of its request method. |
| Scenarios.SelfAddressedRequestRepeats | service.py:239-243 | Once such a package is sent into an otherwise empty queue, any number n of worker steps adds exactly n calls of its request method to the trace and never its callback, for any positive capacity and any returning handler. |
| Scenarios.StartStopScenario | test.py:119-138 | Two started services report running. Once both are stopped, they report stopped, the registry is empty and no method was called. |
| Scenarios.RestartAsWrittenStalls | service.py:99-109 | After start, stop, start, the service reports running and is registered. A delivered package is never taken out, and the next request finds the queue full. |
| Scenarios.RestartServes | service.py:94-107 | With fresh workers on restart, the queued package is taken out and its method is called. |

## Left out

- Threads, `join`, the dequeue timeout and the worker's `Empty` retry: a worker step is one atomic transition, and an empty queue leaves the state unchanged. Parallel handler execution on the same service object is not modelled.
- `__del__`: when it runs depends on the garbage collector.
- `task_done`: it only serves `Queue.join`, which nothing calls.
- Logging (`log.py` and every `Log.*` call): these are treated as no-ops, and only the drop reason of a send is reported, as a `Delivery` outcome.
- Python reflection: `getattr`, arbitrary iterable objects (dicts, sets, generators) and arity errors are replaced by a method table and a three-kind value type. Arity errors fold into a handler raising.
- Handlers that change their own service or send packages themselves: handlers are pure functions of their arguments, and their effect is visible only through the call trace.
- Queue capacity of zero or less, which the standard-library queue treats as unbounded: `Create` requires a positive capacity.
- Services.Create / Services.Start: the number of worker threads matters only as zero or at least one, because threads run in parallel and the model has one atomic worker step. A negative `numWorkerThreads`, which builds no thread, is modelled as zero.
- Packages and arguments are modelled as values. In the code, a package keeps the caller's own argument object, and the request leg writes the result into the shared package object before re-enqueueing it. A package object sent more than once, or changed by its sender after sending, is not modelled: each queued copy here keeps its own arguments and result.
- The sender object passed to `sendRequest` and `sendResponse` is used only in a log message, so the model drops it.
- The ten-thousand-job test (test.py:260-286) compares two `None` results of `list.sort()`, so it asserts nothing. Only the queue-bound behaviour of the burst is modelled, by `Runs.SendBurst`.

## Findings

| source | as written | input that shows it | evidently intended | confidence | as-written member | corrected member |
|---|---|---|---|---|---|---|
| service.py:99-109 | On a second `start` after `stop`, the flag is set and the queue registered before `Thread.start` is called. Each worker thread was already started once, so `Thread.start` raises `RuntimeError`, which is caught and logged. The service is left running and registered with no worker. | `s.start(); s.stop(); s.start(); s.sendRequest(Package(s.name, "m"))`: the package stays queued forever, and once the queue is full every request is dropped. | `start` runs worker threads, as its docstring says, so a restarted service is served again. | medium, not executed | Services.StartAsWritten, exhibited by Scenarios.RestartAsWrittenStalls | Services.Start, with Runs.RunKeepsLive and Scenarios.RestartServes |

=== FILE: packages.dfy ===
/** The envelope that carries a request and, optionally, its response
    continuation (service.py:12-46). */
module Packages {
  import opened Wrappers
  import opened Values

  datatype Package = Package(
    requestServiceName: string,
    requestMethod: string,
    requestArguments: Arguments,
    responseServiceName: Option<string>,
    responseMethod: Option<string>,
    responseArguments: Arguments)

  /** `Package(...)`: the request arguments are normalised, the names are
      kept as given and the response arguments start absent. */
  function NewPackage(
    requestServiceName: string,
    requestMethod: string,
    requestArguments: Option<Value>,
    responseServiceName: Option<string>,
    responseMethod: Option<string>): (p: Package)
    ensures p.requestServiceName == requestServiceName && p.requestMethod == requestMethod
    ensures p.responseServiceName == responseServiceName && p.responseMethod == responseMethod
    ensures p.responseArguments.None?
    ensures requestArguments.None? ==> p.requestArguments.None? && Positional(p.requestArguments) == []
    ensures requestArguments.Some? && requestArguments.value.Int? ==>
              Positional(p.requestArguments) == [requestArguments.value]
    ensures requestArguments.Some? && requestArguments.value.Items? ==>
              Positional(p.requestArguments) == requestArguments.value.elems
    ensures requestArguments.Some? && requestArguments.value.Text? ==> p.requestArguments == requestArguments
  {
    Package(requestServiceName, requestMethod, Normalize(requestArguments),
            responseServiceName, responseMethod, None)
  }
}

=== FILE: runs.dfy ===
/**
 Arbitrary interleavings of lifecycle, send and worker steps, and the
 invariants every interleaving keeps: queue bounds (service.py:73, 150, 172),
 registry consistency, and, with the corrected start, live workers exactly
 for running services that have threads.
 */
module Runs {
  import opened Wrappers
  import opened Packages
  import opened Services
  import opened Workers

  /** One step a host program or a worker can take. Steps naming a service
      that does not exist, or a capacity that is not positive, do nothing. */
  datatype Action =
    | Construct(name: string, capacity: nat, threads: nat)
    | StartService(id: nat)
    | StopService(id: nat)
    | SendRequestOf(p: Package)
    | SendResponseOf(p: Package)
    | WorkOn(id: nat, methods: Methods)

  /** One step. `asWritten` selects the start of the code as written
      (`StartAsWritten`) instead of the corrected `Start`. */
  function Apply(s: System, a: Action, asWritten: bool): (r: System)
    ensures Valid(s) ==> Valid(r)
    ensures !asWritten && Live(s) ==> Live(r)
  {
    match a
    case Construct(name, capacity, threads) =>
      if 0 < capacity then Create(s, name, capacity, threads).0 else s
    case StartService(id) =>
      if id >= |s.services| then s
      else if asWritten then StartAsWritten(s, id)
      else Start(s, id)
    case StopService(id) => if id < |s.services| then Stop(s, id) else s
    case SendRequestOf(p) => SendRequest(s, p).0
    case SendResponseOf(p) => SendResponse(s, p).0
    case WorkOn(id, methods) => if id < |s.services| then WorkerStep(s, id, methods) else s
  }

  function Run(s: System, actions: seq<Action>, asWritten: bool): System
    decreases |actions|
  {
    if actions == [] then s else Run(Apply(s, actions[0], asWritten), actions[1..], asWritten)
  }

  /** Every interleaving, with the start as written or the corrected one,
      keeps the system invariant: no queue ever holds more packages than its
      capacity, every registered name leads to a service of that name, and
      every queued package is addressed to the service holding it. */
  lemma {:induction false} RunKeepsValid(s: System, actions: seq<Action>, asWritten: bool)
    requires Valid(s)
    ensures Valid(Run(s, actions, asWritten))
    ensures forall i :: 0 <= i < |Run(s, actions, asWritten).services| ==>
              |Run(s, actions, asWritten).services[i].jobs| <= Run(s, actions, asWritten).services[i].capacity
    decreases |actions|
  {
    if actions != [] {
      RunKeepsValid(Apply(s, actions[0], asWritten), actions[1..], asWritten);
    }
  }

  /** With the corrected start, every interleaving keeps workers alive
      exactly for running services that have threads. */
  lemma {:induction false} RunKeepsLive(s: System, actions: seq<Action>)
    requires Live(s)
    ensures Live(Run(s, actions, false))
    decreases |actions|
  {
    if actions != [] {
      RunKeepsLive(Apply(s, actions[0], false), actions[1..]);
    }
  }

  /** From a process with no services every reachable state is valid, with
      either start; with the corrected start it is also live. */
  lemma Reachable(actions: seq<Action>, asWritten: bool)
    ensures Valid(Run(NoServices, actions, asWritten))
    ensures !asWritten ==> Live(Run(NoServices, actions, asWritten))
  {
    RunKeepsValid(NoServices, actions, asWritten);
    if !asWritten {
      RunKeepsLive(NoServices, actions);
    }
  }

  /** With the start as written, liveness is lost: start, stop and start
      again reach a running service with a thread and no live worker. */
  lemma AsWrittenLosesLive()
    ensures var r := Run(NoServices, [Construct("S", 1, 1), StartService(0), StopService(0), StartService(0)], true);
            && State(r, 0) && 0 < r.services[0].threads && !Alive(r, 0)
            && !Live(r)
  {
  }

  function Min(a: nat, b: nat): nat {
    if a <= b then a else b
  }

  /** Free places left in a queue. */
  function Room(v: Service): nat {
    if |v.jobs| < v.capacity then v.capacity - |v.jobs| else 0
  }

  /** A burst of `sendRequest` calls to one service: as many packages as
      the queue has room for are appended in order, every later one is
      dropped, and an unregistered target receives none. */
  method SendBurst(s: System, name: string, ps: seq<Package>) returns (r: System, delivered: nat)
    requires forall k :: 0 <= k < |ps| ==> ps[k].requestServiceName == name
    ensures Lookup(s, name).None? ==> r == s && delivered == 0
    ensures Lookup(s, name).Some? ==>
              var i := Lookup(s, name).value;
              && delivered == Min(|ps|, Room(s.services[i]))
              && r == s.(services := s.services[i := s.services[i].(jobs := s.services[i].jobs + ps[..delivered])])
  {
    r := s;
    delivered := 0;
    if Lookup(s, name).None? {
      return;
    }
    var i := Lookup(s, name).value;
    var k := 0;
    assert s.services[i].jobs + ps[..0] == s.services[i].jobs;
    assert s.services[i := s.services[i]] == s.services;
    while k < |ps|
      invariant 0 <= k <= |ps|
      invariant delivered == Min(k, Room(s.services[i]))
      invariant r == s.(services := s.services[i := s.services[i].(jobs := s.services[i].jobs + ps[..delivered])])
    {
      var next := SendRequest(r, ps[k]);
      assert Lookup(r, name) == Some(i);
      assert |r.services[i].jobs| == |s.services[i].jobs| + delivered;
      if next.1 == Delivered {
        assert ps[..delivered + 1] == ps[..delivered] + [ps[k]];
        assert r.services[i].jobs + [ps[k]] == s.services[i].jobs + ps[..delivered + 1];
        assert next.0.services == s.services[i := s.services[i].(jobs := s.services[i].jobs + ps[..delivered + 1])];
        delivered := delivered + 1;
      }
      r := next.0;
      k := k + 1;
    }
  }
}

=== FILE: scenarios.dfy ===
/**
 Request/response round trips across two services, the lifecycle scenario,
 and the restart defect of `start()`.
 */
module Scenarios {
  import opened Wrappers
  import opened Values
  import opened Packages
  import opened Services
  import opened Workers

  /** Sender `a` and receiver `b` are distinct running services, each
      registered under its own name, with live workers and empty queues. */
  predicate Ready(s: System, a: nat, b: nat) {
    && Valid(s)
    && a < |s.services| && b < |s.services|
    && s.services[a].name != s.services[b].name
    && Lookup(s, s.services[a].name) == Some(a) && Lookup(s, s.services[b].name) == Some(b)
    && Alive(s, a) && Alive(s, b)
    && s.services[a].jobs == [] && s.services[b].jobs == []
  }

  /** Queue `i` holds exactly `p`; every other part of `s` is kept. */
  function Holding(s: System, i: nat, p: Package, t: seq<Call>): System
    requires i < |s.services|
  {
    s.(services := s.services[i := s.services[i].(jobs := [p])], trace := t)
  }

  /** First hop: the request is delivered to `b`, and `b`'s worker calls the
      request method and forwards the normalised result to `a`. */
  lemma RequestHop(s: System, a: nat, b: nat, p: Package, mb: Methods)
    requires Ready(s, a, b)
    requires p.requestServiceName == s.services[b].name
    requires p.responseServiceName == Some(s.services[a].name) && p.responseMethod.Some?
    requires p.requestMethod in mb && mb[p.requestMethod](Positional(p.requestArguments)).Returned?
    ensures var args := Positional(p.requestArguments);
            var q := p.(responseArguments := Normalize(mb[p.requestMethod](args).result));
            WorkerStep(SendRequest(s, p).0, b, mb) == Holding(s, a, q, s.trace + [Call(b, p.requestMethod, args)])
  {
    var args := Positional(p.requestArguments);
    var q := p.(responseArguments := Normalize(mb[p.requestMethod](args).result));
    assert WellFormed(s.services[b]);
    assert SendRequest(s, p).1 == Delivered;
    assert s.services[b].jobs + [p] == [p];
    var s1 := SendRequest(s, p).0;
    assert s1 == Holding(s, b, p, s.trace);
    assert s.services[b := s.services[b]] == s.services;
    assert Popped(s1, b) == s;
    var called := s.(trace := s.trace + [Call(b, p.requestMethod, args)]);
    assert WorkerStep(s1, b, mb) == Request(s, b, p, mb);
    assert Request(s, b, p, mb) == SendResponse(called, q).0;
    assert WellFormed(s.services[a]);
    assert Lookup(called, s.services[a].name) == Some(a);
    assert SendResponse(called, q).1 == Delivered;
    assert s.services[a].jobs + [q] == [q];
  }

  /** Second hop: `a`'s worker takes the response and calls the callback. */
  lemma ResponseHop(s: System, a: nat, q: Package, t: seq<Call>, ma: Methods)
    requires a < |s.services| && Alive(s, a) && s.services[a].jobs == []
    requires q.requestServiceName != s.services[a].name && q.responseServiceName == Some(s.services[a].name)
    requires q.responseMethod.Some? && q.responseMethod.value in ma
    ensures WorkerStep(Holding(s, a, q, t), a, ma) ==
            s.(trace := t + [Call(a, q.responseMethod.value, Positional(q.responseArguments))])
  {
    assert s.services[a := s.services[a]] == s.services;
    assert Popped(Holding(s, a, q, t), a) == s.(trace := t);
  }

  /** The request/response round trip: `a` sends `p` to `b`, one worker step
      of `b` calls the request method, one worker step of `a` calls the
      callback with the normalised result, and every queue is empty again. */
  lemma RoundTrip(s: System, a: nat, b: nat, p: Package, mb: Methods, ma: Methods)
    requires Ready(s, a, b)
    requires p.requestServiceName == s.services[b].name
    requires p.responseServiceName == Some(s.services[a].name)
    requires p.responseMethod.Some? && p.responseMethod.value in ma
    requires p.requestMethod in mb && mb[p.requestMethod](Positional(p.requestArguments)).Returned?
    ensures var result := mb[p.requestMethod](Positional(p.requestArguments)).result;
            WorkerStep(WorkerStep(SendRequest(s, p).0, b, mb), a, ma) ==
              s.(trace := s.trace + [Call(b, p.requestMethod, Positional(p.requestArguments)),
                                     Call(a, p.responseMethod.value, Positional(Normalize(result)))])
  {
    var args := Positional(p.requestArguments);
    var q := p.(responseArguments := Normalize(mb[p.requestMethod](args).result));
    var t := s.trace + [Call(b, p.requestMethod, args)];
    var callback := Call(a, p.responseMethod.value, Positional(q.responseArguments));
    assert t + [callback] == s.trace + [Call(b, p.requestMethod, args), callback];
    RequestHop(s, a, b, p, mb);
    ResponseHop(s, a, q, t, ma);
  }

  /** A scalar sent to a method that returns its argument reaches the
      callback as exactly one argument, the scalar itself. */
  lemma EchoRoundTrip(s: System, a: nat, b: nat, x: int, echo: Handler, ma: Methods)
    requires Ready(s, a, b)
    requires echo([Int(x)]) == Returned(Some(Int(x)))
    requires "onReceiveNumberDone" in ma
    ensures var p := NewPackage(s.services[b].name, "receiveNumber", Some(Int(x)),
                                Some(s.services[a].name), Some("onReceiveNumberDone"));
            var s3 := WorkerStep(WorkerStep(SendRequest(s, p).0, b, map["receiveNumber" := echo]), a, ma);
            s3.trace == s.trace + [Call(b, "receiveNumber", [Int(x)]), Call(a, "onReceiveNumberDone", [Int(x)])]
  {
    var p := NewPackage(s.services[b].name, "receiveNumber", Some(Int(x)),
                        Some(s.services[a].name), Some("onReceiveNumberDone"));
    RoundTrip(s, a, b, p, map["receiveNumber" := echo], ma);
  }

  /** A void method leads to a callback with no arguments. */
  lemma VoidRoundTrip(s: System, a: nat, b: nat, void: Handler, ma: Methods)
    requires Ready(s, a, b)
    requires void([]) == Returned(None)
    requires "onReceiveNoneDone" in ma
    ensures var p := NewPackage(s.services[b].name, "receiveNone", None,
                                Some(s.services[a].name), Some("onReceiveNoneDone"));
            var s3 := WorkerStep(WorkerStep(SendRequest(s, p).0, b, map["receiveNone" := void]), a, ma);
            s3.trace == s.trace + [Call(b, "receiveNone", []), Call(a, "onReceiveNoneDone", [])]
  {
    var p := NewPackage(s.services[b].name, "receiveNone", None,
                        Some(s.services[a].name), Some("onReceiveNoneDone"));
    RoundTrip(s, a, b, p, map["receiveNone" := void], ma);
  }

  /** The calculator example: the pair (34, 21) is spread into two arguments
      and the returned triple is spread into three callback arguments. */
  lemma CalculatorRoundTrip(s: System, a: nat, b: nat, plus: Handler, ma: Methods)
    requires Ready(s, a, b)
    requires plus([Int(34), Int(21)]) == Returned(Some(Items([Int(34), Int(21), Int(55)])))
    requires "onPlusOperationDone" in ma
    ensures var p := NewPackage(s.services[b].name, "plusOperation", Some(Items([Int(34), Int(21)])),
                                Some(s.services[a].name), Some("onPlusOperationDone"));
            var s3 := WorkerStep(WorkerStep(SendRequest(s, p).0, b, map["plusOperation" := plus]), a, ma);
            s3.trace == s.trace + [Call(b, "plusOperation", [Int(34), Int(21)]),
                                   Call(a, "onPlusOperationDone", [Int(34), Int(21), Int(55)])]
  {
    var p := NewPackage(s.services[b].name, "plusOperation", Some(Items([Int(34), Int(21)])),
                        Some(s.services[a].name), Some("onPlusOperationDone"));
    RoundTrip(s, a, b, p, map["plusOperation" := plus], ma);
  }

  /** A request without a response service is fire-and-forget: the method
      is called and nothing is sent anywhere afterwards. */
  lemma FireAndForget(s: System, a: nat, b: nat, p: Package, mb: Methods)
    requires Ready(s, a, b)
    requires p.requestServiceName == s.services[b].name && p.responseServiceName.None?
    requires p.requestMethod in mb
    ensures var s2 := WorkerStep(SendRequest(s, p).0, b, mb);
            && s2.trace == s.trace + [Call(b, p.requestMethod, Positional(p.requestArguments))]
            && s2.services == s.services
  {
    var s1 := SendRequest(s, p).0;
    assert Popped(s1, b).services == s.services;
  }

  /** The conditions of a self-addressed request at service `b`: the request
      and the response both name `b`, which is registered and has a live
      worker, and the request method returns. */
  predicate SelfAddressed(s: System, b: nat, p: Package, mb: Methods) {
    && b < |s.services| && 0 < s.services[b].capacity && Alive(s, b)
    && Lookup(s, s.services[b].name) == Some(b)
    && p.requestServiceName == s.services[b].name && p.responseServiceName == Some(s.services[b].name)
    && p.responseMethod.Some?
    && p.requestMethod in mb && mb[p.requestMethod](Positional(p.requestArguments)).Returned?
  }

  /** The package a self-addressed request comes back as. */
  function Answered(p: Package, mb: Methods): Package
    requires p.requestMethod in mb && mb[p.requestMethod](Positional(p.requestArguments)).Returned?
  {
    p.(responseArguments := Normalize(mb[p.requestMethod](Positional(p.requestArguments)).result))
  }

  /** `n` consecutive worker iterations of service `b`. */
  function Steps(s: System, b: nat, mb: Methods, n: nat): System
    requires b < |s.services|
    decreases n
  {
    if n == 0 then s else Steps(WorkerStep(s, b, mb), b, mb, n - 1)
  }

  function Copies(c: Call, n: nat): (r: seq<Call>)
    ensures |r| == n && forall k :: 0 <= k < n ==> r[k] == c
  {
    seq(n, k => c)
  }

  /** One delivery of a self-addressed request: the request method is
      called and the package returns to the same queue, still a request. */
  lemma SelfAddressedStep(s: System, b: nat, p: Package, t: seq<Call>, mb: Methods)
    requires SelfAddressed(s, b, p, mb) && s.services[b].jobs == []
    ensures WorkerStep(Holding(s, b, p, t), b, mb) ==
            Holding(s, b, Answered(p, mb), t + [Call(b, p.requestMethod, Positional(p.requestArguments))])
  {
    var h := Holding(s, b, p, t);
    assert s.services[b := s.services[b]] == s.services;
    assert Popped(h, b) == s.(trace := t);
    var called := s.(trace := t + [Call(b, p.requestMethod, Positional(p.requestArguments))]);
    assert WorkerStep(h, b, mb) == SendResponse(called, Answered(p, mb)).0;
    assert Lookup(called, s.services[b].name) == Some(b);
    assert SendResponse(called, Answered(p, mb)).1 == Delivered;
    assert s.services[b].jobs + [Answered(p, mb)] == [Answered(p, mb)];
  }

  /** Once answered, a self-addressed package is a fixed point of the loop:
      each worker step adds one call of its request method and puts the
      same package back. */
  lemma {:induction false} AnsweredLoops(s: System, b: nat, q: Package, t: seq<Call>, mb: Methods, n: nat)
    requires SelfAddressed(s, b, q, mb) && s.services[b].jobs == [] && Answered(q, mb) == q
    ensures Steps(Holding(s, b, q, t), b, mb, n) ==
            Holding(s, b, q, t + Copies(Call(b, q.requestMethod, Positional(q.requestArguments)), n))
    decreases n
  {
    var call := Call(b, q.requestMethod, Positional(q.requestArguments));
    if n == 0 {
      assert t + Copies(call, 0) == t;
    } else {
      SelfAddressedStep(s, b, q, t, mb);
      AnsweredLoops(s, b, q, t + [call], mb, n - 1);
      assert t + [call] + Copies(call, n - 1) == t + Copies(call, n);
    }
  }

  /** However many deliveries follow, a self-addressed request keeps coming
      back as a request: the only calls made are its request method, once
      per delivery, and its callback is never called. */
  lemma SelfAddressedLoops(s: System, b: nat, p: Package, t: seq<Call>, mb: Methods, n: nat)
    requires SelfAddressed(s, b, p, mb) && s.services[b].jobs == []
    ensures var call := Call(b, p.requestMethod, Positional(p.requestArguments));
            Steps(Holding(s, b, p, t), b, mb, n) ==
              Holding(s, b, if n == 0 then p else Answered(p, mb), t + Copies(call, n))
  {
    var call := Call(b, p.requestMethod, Positional(p.requestArguments));
    if n == 0 {
      assert t + Copies(call, 0) == t;
    } else {
      SelfAddressedStep(s, b, p, t, mb);
      var q := Answered(p, mb);
      assert Answered(q, mb) == q;
      AnsweredLoops(s, b, q, t + [call], mb, n - 1);
      assert t + [call] + Copies(call, n - 1) == t + Copies(call, n);
    }
  }

  /** A request whose response service is its own target never reaches its
      callback: after it is sent, every one of any number of worker steps
      calls the request method again, and nothing else is called. */
  lemma SelfAddressedRequestRepeats(s: System, b: nat, p: Package, mb: Methods, n: nat)
    requires SelfAddressed(s, b, p, mb) && s.services[b].jobs == []
    ensures var call := Call(b, p.requestMethod, Positional(p.requestArguments));
            Steps(SendRequest(s, p).0, b, mb, n).trace == s.trace + Copies(call, n)
  {
    assert SendRequest(s, p).1 == Delivered;
    assert s.services[b].jobs + [p] == [p];
    assert SendRequest(s, p).0 == Holding(s, b, p, s.trace);
    SelfAddressedLoops(s, b, p, s.trace, mb, n);
  }

  /** The start/stop test: two services started report running, and once
      both are stopped they report stopped, nothing is registered and no
      method was called. */
  lemma StartStopScenario()
    ensures var (s0, u) := Create(NoServices, "Sender", 10000, 10);
            var (s1, c) := Create(s0, "Receiver", 10000, 10);
            var s2 := Start(Start(s1, u), c);
            var s3 := Stop(Stop(s2, u), c);
            && State(s2, u) && State(s2, c)
            && !State(s3, u) && !State(s3, c)
            && s3.registry == map[] && s3.trace == []
  {
  }

  /** The restart defect, as written: start, stop, start again. The service
      reports running and its queue is registered, but no worker drains it:
      a delivered package stays queued forever, and once the queue is full
      every further request is dropped. */
  lemma RestartAsWrittenStalls(methods: Methods)
    ensures var s0 := Create(NoServices, "S", 1, 16).0;
            var s3 := StartAsWritten(Stop(StartAsWritten(s0, 0), 0), 0);
            var p := NewPackage("S", "m", None, None, None);
            var s4 := SendRequest(s3, p).0;
            && State(s4, 0) && Lookup(s4, "S") == Some(0)
            && s4.services[0].jobs == [p]
            && WorkerStep(s4, 0, methods) == s4
            && SendRequest(s4, p).1 == QueueFull
  {
  }

  /** The same sequence with `Start` launching fresh workers: the queued
      package is taken out and its method called. */
  lemma RestartServes(methods: Methods)
    requires "m" in methods
    ensures var s0 := Create(NoServices, "S", 1, 16).0;
            var s3 := Start(Stop(Start(s0, 0), 0), 0);
            var p := NewPackage("S", "m", None, None, None);
            var s5 := WorkerStep(SendRequest(s3, p).0, 0, methods);
            && State(s5, 0) && s5.services[0].jobs == []
            && s5.trace == [Call(0, "m", [])]
  {
  }
}

=== FILE: services.dfy ===
/**
 Services, the process-wide registry and the send operations
 (service.py:49-178), as pure transitions over one system state.
 */
module Services {
  import opened Wrappers
  import opened Values
  import opened Packages

  /** One invocation of a service method: which service, which method and
      the positional arguments it received. */
  datatype Call = Call(service: nat, methodName: string, args: seq<Value>)

  /** A `Service` object: its name, the bound of its job queue, the number
      of worker threads it was built with, the running flag, whether its
      worker threads were ever started, whether workers are currently draining
      the queue, and the queued packages, front first. */
  datatype Service = Service(
    name: string,
    capacity: nat,
    threads: nat,
    running: bool,
    threadsUsed: bool,
    workersAlive: bool,
    jobs: seq<Package>)

  /** All services (indexed by creation order), the registry from service
      name to the index whose queue is registered, and the calls made so far. */
  datatype System = System(services: seq<Service>, registry: map<string, nat>, trace: seq<Call>)

  /** What became of a send; every outcome but `Delivered` leaves the
      state unchanged. */
  datatype Delivery = Delivered | NoResponseTarget | NotExist | QueueFull | SendRaised

  const NoServices: System := System([], map[], [])

  /** A package a queue may hold is routed to it by one of its two names. */
  predicate AddressedTo(p: Package, name: string) {
    p.requestServiceName == name || p.responseServiceName == Some(name)
  }

  predicate WellFormed(v: Service) {
    && 0 < v.capacity
    && |v.jobs| <= v.capacity
    && (v.workersAlive ==> v.running)
    && forall k :: 0 <= k < |v.jobs| ==> AddressedTo(v.jobs[k], v.name)
  }

  /** Every registered name leads to a service of that name. */
  predicate RegistryConsistent(s: System) {
    forall n :: n in s.registry ==> s.registry[n] < |s.services| && s.services[s.registry[n]].name == n
  }

  /** The invariant of every reachable state. */
  predicate Valid(s: System) {
    && RegistryConsistent(s)
    && forall i :: 0 <= i < |s.services| ==> WellFormed(s.services[i])
  }

  /** Workers are draining exactly the queues of running services that have
      at least one worker thread. */
  predicate Live(s: System) {
    forall i :: 0 <= i < |s.services| ==>
      s.services[i].workersAlive == (s.services[i].running && 0 < s.services[i].threads)
  }

  /** `state()`. */
  function State(s: System, id: nat): (r: bool)
    requires id < |s.services|
    ensures WellFormed(s.services[id]) && Alive(s, id) ==> r
    ensures Live(s) && 0 < s.services[id].threads ==> (r <==> Alive(s, id))
  {
    s.services[id].running
  }

  predicate Alive(s: System, id: nat)
    requires id < |s.services|
  {
    s.services[id].workersAlive
  }

  /** The same services in the same lifecycle state and the same registry:
      only queues and the call trace may differ. */
  predicate SameServices(s: System, r: System) {
    && |r.services| == |s.services|
    && r.registry == s.registry
    && forall j :: 0 <= j < |s.services| ==> r.services[j].(jobs := []) == s.services[j].(jobs := [])
  }

  /** Every service other than `id`, and the call trace, are as they were. */
  predicate OthersUnchanged(s: System, r: System, id: nat) {
    && |r.services| == |s.services|
    && r.trace == s.trace
    && forall j :: 0 <= j < |s.services| && j != id ==> r.services[j] == s.services[j]
  }

  /** Queue `i` grew by `p` at its back and nothing else changed. */
  predicate Appended(s: System, r: System, i: nat, p: Package)
    requires i < |s.services|
  {
    r == s.(services := s.services[i := s.services[i].(jobs := s.services[i].jobs + [p])])
  }

  /** The registered queue for `name`, if any. */
  function Lookup(s: System, name: string): Option<nat> {
    if name in s.registry && s.registry[name] < |s.services| then Some(s.registry[name]) else None
  }

  /** `Service(name, workerTimeout, numWorkerThreads, jobQueueMaxSize)`: a
      new idle service with an empty queue and `threads` worker threads, not
      yet started, neither running nor registered. */
  function Create(s: System, name: string, capacity: nat, threads: nat): (r: (System, nat))
    requires 0 < capacity
    ensures r.1 == |s.services| && |r.0.services| == |s.services| + 1
    ensures r.0.services[..|s.services|] == s.services
    ensures r.0.registry == s.registry && r.0.trace == s.trace
    ensures r.0.services[r.1].name == name && r.0.services[r.1].capacity == capacity
    ensures r.0.services[r.1].threads == threads && !r.0.services[r.1].threadsUsed
    ensures !State(r.0, r.1) && !Alive(r.0, r.1) && r.0.services[r.1].jobs == []
    ensures Valid(s) ==> Valid(r.0)
    ensures Live(s) ==> Live(r.0)
  {
    (s.(services := s.services + [Service(name, capacity, threads, false, false, false, [])]), |s.services|)
  }

  /** `start()` with fresh workers on every start: a running service is left
      alone; otherwise the service runs, its workers (if it has any threads)
      drain its queue, and its name is mapped to its own queue, replacing
      whatever the name was mapped to before. */
  function Start(s: System, id: nat): (r: System)
    requires id < |s.services|
    ensures OthersUnchanged(s, r, id)
    ensures State(r, id)
    ensures !State(s, id) ==> (Alive(r, id) <==> 0 < s.services[id].threads)
    ensures State(s, id) ==> r == s
    ensures !State(s, id) ==> r.registry == s.registry[s.services[id].name := id]
    ensures r.services[id].jobs == s.services[id].jobs
    ensures r.services[id].name == s.services[id].name && r.services[id].capacity == s.services[id].capacity
    ensures r.services[id].threads == s.services[id].threads
    ensures Valid(s) ==> Valid(r)
    ensures Live(s) ==> Live(r)
  {
    var v := s.services[id];
    if v.running then s
    else
      s.(services := s.services[id := v.(running := true, threadsUsed := true, workersAlive := 0 < v.threads)],
         registry := s.registry[v.name := id])
  }

  /** `start()` as written: on a restart the worker threads were already
      started once, so the first `Thread.start` raises, the error is logged,
      and the service is left running and registered with no worker. A
      service without threads has no worker either way. */
  function StartAsWritten(s: System, id: nat): (r: System)
    requires id < |s.services|
    ensures OthersUnchanged(s, r, id)
    ensures State(r, id)
    ensures State(s, id) ==> r == s
    ensures !State(s, id) ==> r.registry == s.registry[s.services[id].name := id]
    ensures !State(s, id) ==> (Alive(r, id) <==> !s.services[id].threadsUsed && 0 < s.services[id].threads)
    ensures !s.services[id].threadsUsed ==> r == Start(s, id)
    ensures r.services[id].(workersAlive := false) == Start(s, id).services[id].(workersAlive := false)
    ensures r.services[id].jobs == s.services[id].jobs
    ensures Valid(s) ==> Valid(r)
  {
    var v := s.services[id];
    if v.running then s
    else
      s.(services := s.services[id := v.(running := true, threadsUsed := true, workersAlive := !v.threadsUsed && 0 < v.threads)],
         registry := s.registry[v.name := id])
  }

  /** `stop()`: a stopped service is left alone; otherwise the flag is
      cleared, the workers are joined and the service's name is removed from
      the registry. The entry is removed whatever it maps to, and a missing
      entry is no failure. Queued packages stay in the queue. */
  function Stop(s: System, id: nat): (r: System)
    requires id < |s.services|
    ensures OthersUnchanged(s, r, id)
    ensures !State(r, id)
    ensures WellFormed(s.services[id]) ==> !Alive(r, id)
    ensures !State(s, id) ==> r == s
    ensures State(s, id) ==> r.registry == s.registry - {s.services[id].name}
    ensures s.services[id].name !in r.registry || r == s
    ensures r.services[id].jobs == s.services[id].jobs
    ensures r.services[id].name == s.services[id].name && r.services[id].capacity == s.services[id].capacity
    ensures r.services[id].threads == s.services[id].threads
    ensures Valid(s) ==> Valid(r)
    ensures Live(s) ==> Live(r)
  {
    var v := s.services[id];
    if !v.running then s
    else
      s.(services := s.services[id := v.(running := false, workersAlive := false)],
         registry := s.registry - {v.name})
  }

  /** Non-blocking `put` on the queue registered under `name`. */
  function Enqueue(s: System, name: string, p: Package): (r: (System, Delivery))
    ensures r.1 == NotExist <==> Lookup(s, name).None?
    ensures r.1 == Delivered <==>
              Lookup(s, name).Some? && |s.services[Lookup(s, name).value].jobs| < s.services[Lookup(s, name).value].capacity
    ensures r.1 == Delivered || r.1 == NotExist || r.1 == QueueFull
    ensures r.1 == Delivered ==> Appended(s, r.0, Lookup(s, name).value, p)
    ensures r.1 != Delivered ==> r.0 == s
    ensures Valid(s) && AddressedTo(p, name) ==> Valid(r.0)
  {
    match Lookup(s, name)
    case None => (s, NotExist)
    case Some(i) =>
      var v := s.services[i];
      if |v.jobs| < v.capacity then
        (s.(services := s.services[i := v.(jobs := v.jobs + [p])]), Delivered)
      else (s, QueueFull)
  }

  /** `sendRequest(package)`: appends the package to the back of the queue
      registered under its request service name when that name is registered
      and the queue is below capacity; otherwise nothing changes and nothing
      is raised. */
  function SendRequest(s: System, p: Package): (r: (System, Delivery))
    ensures r.1 == NotExist <==> Lookup(s, p.requestServiceName).None?
    ensures r.1 == Delivered <==>
              && Lookup(s, p.requestServiceName).Some?
              && |s.services[Lookup(s, p.requestServiceName).value].jobs| <
                 s.services[Lookup(s, p.requestServiceName).value].capacity
    ensures r.1 == Delivered || r.1 == NotExist || r.1 == QueueFull
    ensures r.1 == Delivered ==> Appended(s, r.0, Lookup(s, p.requestServiceName).value, p)
    ensures r.1 != Delivered ==> r.0 == s
    ensures SameServices(s, r.0)
    ensures Valid(s) ==> Valid(r.0)
  {
    Enqueue(s, p.requestServiceName, p)
  }

  /** `sendResponse(package)`: nothing happens without a response service;
      a response service without a response method makes the log message
      raise before the queue is touched; otherwise it is `sendRequest` keyed
      by the response service name. */
  function SendResponse(s: System, p: Package): (r: (System, Delivery))
    ensures p.responseServiceName.None? ==> r == (s, NoResponseTarget)
    ensures p.responseServiceName.Some? && p.responseMethod.None? ==> r == (s, SendRaised)
    ensures p.responseServiceName.Some? && p.responseMethod.Some? ==>
              && (r.1 == NotExist <==> Lookup(s, p.responseServiceName.value).None?)
              && (r.1 == Delivered <==>
                    && Lookup(s, p.responseServiceName.value).Some?
                    && |s.services[Lookup(s, p.responseServiceName.value).value].jobs| <
                       s.services[Lookup(s, p.responseServiceName.value).value].capacity)
              && (r.1 == Delivered || r.1 == NotExist || r.1 == QueueFull)
              && (r.1 == Delivered ==> Appended(s, r.0, Lookup(s, p.responseServiceName.value).value, p))
    ensures r.1 != Delivered ==> r.0 == s
    ensures SameServices(s, r.0)
    ensures Valid(s) ==> Valid(r.0)
  {
    match p.responseServiceName
    case None => (s, NoResponseTarget)
    case Some(name) =>
      if p.responseMethod.None? then (s, SendRaised) else Enqueue(s, name, p)
  }

  /** `sendResponse` of a package with a response continuation is exactly
      `sendRequest` of the same package re-addressed to the response service. */
  lemma SendResponseIsSendRequest(s: System, p: Package)
    requires p.responseServiceName.Some? && p.responseMethod.Some?
    ensures var q := p.(requestServiceName := p.responseServiceName.value);
            SendResponse(s, p).1 == SendRequest(s, q).1
            && (SendResponse(s, p).1 == Delivered ==>
                  Lookup(s, p.responseServiceName.value) == Lookup(s, q.requestServiceName))
            && (SendResponse(s, p).1 != Delivered ==> SendResponse(s, p).0 == SendRequest(s, q).0)
  {
  }
}

=== FILE: values.dfy ===
/**
 Values exchanged between services, and the argument normalisation shared by
 package construction (service.py:35-42) and the request leg (service.py:200-205).
 */
module Values {
  import opened Wrappers

  /** A value a service method takes or returns. `Text` (a Python string) and
      `Items` (a list or tuple) are the iterable kinds; `Int` stands for every
      value that is not iterable. */
  datatype Value = Int(n: int) | Text(chars: string) | Items(elems: seq<Value>)

  /** `isinstance(v, Iterable)`: strings count, which is why a string argument
      is spread character by character. */
  predicate Iterable(v: Value) {
    v.Text? || v.Items?
  }

  /** An argument slot after normalisation: absent, or an iterable. */
  predicate Normalized(a: Option<Value>) {
    a.None? || Iterable(a.value)
  }

  type Arguments = a: Option<Value> | Normalized(a) witness None

  /** The positional arguments a method receives from a slot: none when the
      slot is absent (`method()`), otherwise the elements of the iterable
      (`method(*a)`), where a string yields its one-character strings. */
  function Positional(a: Arguments): seq<Value> {
    if a.None? then []
    else if a.value.Items? then a.value.elems
    else seq(|a.value.chars|, i requires 0 <= i < |a.value.chars| => Text([a.value.chars[i]]))
  }

  /** Normalisation of an argument or a return value: absent stays absent, an
      iterable passes through unchanged, anything else is wrapped in a
      one-element list. */
  function Normalize(a: Option<Value>): (r: Arguments)
    ensures r.Some? <==> a.Some?
    ensures Normalized(a) ==> r == a
    ensures a.Some? && !Iterable(a.value) ==> Positional(r) == [a.value]
  {
    if Normalized(a) then a else Some(Items([a.value]))
  }

  /** Normalising twice is normalising once. */
  lemma NormalizeIdempotent(a: Option<Value>)
    ensures Normalize(Normalize(a)) == Normalize(a)
  {
  }

  /** The argument ambiguity: one list-valued argument is spread into its
      elements, so the callee never receives the list itself. */
  lemma ListArgumentIsSpread(v: Value)
    requires v.Items?
    ensures Positional(Normalize(Some(v))) == v.elems
    ensures Positional(Normalize(Some(v))) != [v]
  {
    if |v.elems| == 1 {
      assert v.elems[0] < v;
    }
  }

  /** The same ambiguity for strings: a text of several characters arrives
      as several one-character arguments. */
  lemma TextArgumentIsSpread(t: string)
    requires |t| >= 2
    ensures |Positional(Normalize(Some(Text(t))))| == |t|
    ensures forall k :: 0 <= k < |t| ==> Positional(Normalize(Some(Text(t))))[k] == Text([t[k]])
    ensures Positional(Normalize(Some(Text(t)))) != [Text(t)]
  {
  }
}

=== FILE: workers.dfy ===
/**
 One iteration of a worker's loop (service.py:230-250) and the two legs it
 dispatches to (service.py:181-227). A service's methods are an explicit
 table from method name to handler.
 */
module Workers {
  import opened Wrappers
  import opened Values
  import opened Packages
  import opened Services

  /** What calling a method does: it returns a value (`None` for a void
      method) or it raises. A wrong number of arguments raises too. */
  datatype Reply = Returned(result: Option<Value>) | Raised

  type Handler = seq<Value> -> Reply

  /** The methods `getattr` can find on a service, by name. */
  type Methods = map<string, Handler>

  /** `__request`: a missing method drops the package. Otherwise the method
      is called with the spread request arguments; if it raises, the package
      is dropped; if it returns, its result is normalised into the response
      arguments and the package goes to `sendResponse`. */
  function Request(s: System, id: nat, p: Package, methods: Methods): (r: System)
    requires id < |s.services|
    ensures p.requestMethod !in methods ==> r == s
    ensures p.requestMethod in methods ==>
              r.trace == s.trace + [Call(id, p.requestMethod, Positional(p.requestArguments))]
    ensures p.requestMethod in methods && methods[p.requestMethod](Positional(p.requestArguments)).Raised? ==>
              r.services == s.services
    ensures p.requestMethod in methods && methods[p.requestMethod](Positional(p.requestArguments)).Returned? ==>
              var q := p.(responseArguments := Normalize(methods[p.requestMethod](Positional(p.requestArguments)).result));
              r.services == SendResponse(s, q).0.services
    ensures SameServices(s, r)
    ensures Valid(s) ==> Valid(r)
  {
    if p.requestMethod !in methods then s
    else
      var args := Positional(p.requestArguments);
      var called := s.(trace := s.trace + [Call(id, p.requestMethod, args)]);
      match methods[p.requestMethod](args)
      case Raised => called
      case Returned(result) =>
        SendResponse(called, p.(responseArguments := Normalize(result))).0
  }

  /** `__respond`: a missing response method drops the package; otherwise
      the method is called with the spread response arguments and whatever
      it returns or raises is discarded. */
  function Respond(s: System, id: nat, p: Package, methods: Methods): (r: System)
    requires id < |s.services|
    ensures p.responseMethod.None? || p.responseMethod.value !in methods ==> r == s
    ensures p.responseMethod.Some? && p.responseMethod.value in methods ==>
              r == s.(trace := s.trace + [Call(id, p.responseMethod.value, Positional(p.responseArguments))])
  {
    match p.responseMethod
    case None => s
    case Some(m) =>
      if m !in methods then s
      else s.(trace := s.trace + [Call(id, m, Positional(p.responseArguments))])
  }

  /** The state once the front package of queue `id` is taken out. */
  function Popped(s: System, id: nat): (r: System)
    requires id < |s.services| && s.services[id].jobs != []
    ensures SameServices(s, r) && r.trace == s.trace
    ensures r.services[id].jobs == s.services[id].jobs[1..]
    ensures forall j :: 0 <= j < |s.services| && j != id ==> r.services[j] == s.services[j]
    ensures Valid(s) ==> Valid(r)
  {
    s.(services := s.services[id := s.services[id].(jobs := s.services[id].jobs[1..])])
  }

  /** One worker iteration of service `id`. With no live worker or an empty
      queue nothing happens. Otherwise the front package is taken out; the
      request leg runs when its request service name is this service's name,
      otherwise the response leg when its response service name is, and
      otherwise the package is dropped. */
  function WorkerStep(s: System, id: nat, methods: Methods): (r: System)
    requires id < |s.services|
    ensures SameServices(s, r)
    ensures !Alive(s, id) || s.services[id].jobs == [] ==> r == s
    ensures Alive(s, id) && s.services[id].jobs != [] ==>
              var p := s.services[id].jobs[0];
              var name := s.services[id].name;
              && (p.requestServiceName == name ==> r == Request(Popped(s, id), id, p, methods))
              && (p.requestServiceName != name && p.responseServiceName == Some(name) ==>
                    r == Respond(Popped(s, id), id, p, methods))
              && (p.requestServiceName != name && p.responseServiceName != Some(name) ==>
                    r == Popped(s, id))
    ensures Valid(s) ==> Valid(r)
  {
    var v := s.services[id];
    if !v.workersAlive || v.jobs == [] then s
    else
      var p := v.jobs[0];
      var rest := Popped(s, id);
      if p.requestServiceName == v.name then Request(rest, id, p, methods)
      else if p.responseServiceName == Some(v.name) then Respond(rest, id, p, methods)
      else rest
  }

  /** A package that reaches a live worker is dropped without any further
      enqueue when its method is missing or raises: the worker's queue loses
      its front and every other queue is unchanged. */
  lemma StepDropsFailedRequest(s: System, id: nat, methods: Methods)
    requires id < |s.services| && Alive(s, id) && s.services[id].jobs != []
    requires s.services[id].jobs[0].requestServiceName == s.services[id].name
    requires var p := s.services[id].jobs[0];
             p.requestMethod !in methods || methods[p.requestMethod](Positional(p.requestArguments)).Raised?
    ensures WorkerStep(s, id, methods).services == Popped(s, id).services
  {
  }

  /** The request leg takes precedence: a package whose request service and
      response service both name this service is handled as a request, and
      the only method called is its request method. */
  lemma RequestLegTakesPrecedence(s: System, id: nat, methods: Methods)
    requires id < |s.services| && Alive(s, id) && s.services[id].jobs != []
    requires s.services[id].jobs[0].requestServiceName == s.services[id].name
    requires s.services[id].jobs[0].responseServiceName == Some(s.services[id].name)
    requires s.services[id].jobs[0].requestMethod in methods
    ensures var p := s.services[id].jobs[0];
            WorkerStep(s, id, methods).trace == s.trace + [Call(id, p.requestMethod, Positional(p.requestArguments))]
  {
  }
}

=== FILE: wrappers.dfy ===
/** Optional values: Python's `None` versus a present value. */
module Wrappers {

  datatype Option<+T> = None | Some(value: T)
}
